=== FILE: README.md ===
# Order workflow of the e-commerce backend, modelled in Dafny

This project models the order workflow of a small REST backend for
categories, products and orders. The workflow has two paths.

- **Placing an order.** The service walks the requested line items in order.
  For each item it looks up the product, refuses a missing product or short
  stock, and otherwise decrements the stock and saves the product at once.
  Only after the loop does it persist the order: the client's payload with
  `createdBy` set to the requesting user. The order schema (required fields,
  item quantity 1..5, status enumeration with default `pending`) is checked
  only at that final step.
- **Listing orders.** The caller's filter is always scoped to the requesting
  user. The matching orders are counted, sorted newest first, and cut into
  one page with `skip = (page-1)*limit` and `limit`. `totalPages` is the count
  divided by `limit`, rounded up.

The controller decides the HTTP status and the response envelope. It handles
the missing-user short-circuit, the query defaults (`limit=10`, `page=1`,
`search=""`) and the case-insensitive search filter.

The document store is a map from product id to product plus a sequence of
orders. Every operation is a pure function that returns the new collections.

Modules, leaves first:

- `Wrappers` (wrappers.dfy): `Option` and `Result`.
- `Model` (model.dfy): products, payloads, stored orders and errors.
- `Schema` (schema.dfy): the order schema as an admission predicate and a validating conversion.
- `Reservation` (reservation.dfy): the stock-reservation loop and its properties.
- `Search` (search.dfy): the ASCII case-insensitive substring match.
- `OrderQuery` (query.dfy): scoping, counting, sorting and paging of the order list.
- `OrdersService` (service.dfy): order creation, and sequential creation calls.
- `OrdersController` (controller.dfy): the two endpoints' decision logic.

The model follows the code as written, including:

- no rollback of earlier decrements when a later item fails;
- `grandTotal` is taken as sent, not recomputed;
- an order with no items is accepted;
- every failure of order creation is a 500, never a 404 or 409;
- a client may send any admitted status, for example `completed`, and it is stored.

Two further modelling choices:

- A `required` string field rejects the empty string, because the document
  mapper treats `""` as missing. Item names are therefore modelled as present
  and non-empty.
- Reading `${item.productId}` when the id is absent gives `undefined`. So the
  "not found" message for an item without an id ends in `undefined`.

## Model

| member | source | states |
|---|---|---|
| `Reservation.Reserve` | src/services/orders.service.ts:7-17 | Whether the loop succeeds or aborts, the set of products and their names stay the same. A product no item names is untouched. Stock that started non-negative stays non-negative. An abort is always "not found" or "insufficient quantity". |
| `Reservation.Take` | src/services/orders.service.ts:8-16 | One loop iteration succeeds exactly when the item's product exists and its stock is at least the quantity. A missing product is reported with the item's own id, short stock with the product's name. On success only that product changes: its stock drops by exactly the quantity and its name stays. |
| `Reservation.ReserveSucceedsIffAdmissible` | src/services/orders.service.ts:7-17 | The loop reserves every item exactly when each item's product exists and the stock left after the earlier items covers the item's quantity. |
| `Reservation.ReservedChargesDemand` | src/services/orders.service.ts:7-17 | On full success each product's stock drops by the sum of the quantities of all items naming it, and every other product is unchanged. |
| `Reservation.AdmissibleIffTotalsFit` | src/services/orders.service.ts:7-17 | With non-negative quantities, the items fit exactly when every named product exists and covers the total quantity requested of it. Repeated ids are charged cumulatively. |
| `Reservation.DuplicateIdsChargedCumulatively` | src/services/orders.service.ts:8-16 | Two items for one product, each fitting the original stock but not together: the second is checked against the already-decremented stock and fails, and the first decrement stays. |
| `Reservation.MissingProductAborts` | src/services/orders.service.ts:8-11 | If item k's product is absent, the loop aborts with "product not found" for that id, and the store is the one items 0..k-1 left. |
| `Reservation.ShortStockAborts` | src/services/orders.service.ts:12-14 | If the stock items 0..k-1 left is strictly below item k's quantity, the loop aborts with "insufficient quantity" naming the product, keeping the earlier decrements. |
| `Reservation.ExactStockEmpties` | src/services/orders.service.ts:12-16 | Stock exactly equal to the requested quantity is enough: the item is reserved and leaves that product at 0, and every other product is unchanged. |
| `Reservation.FailurePoint` | src/services/orders.service.ts:7-17 | On failure there is an item k such that items 0..k-1 were all reserved and the final store equals the store after them (no rollback). Item k's step threw the error. |
| `Reservation.ReserveResumes` | src/services/orders.service.ts:7-17 | Once items 0..k-1 are reserved, the rest of the loop behaves as a fresh loop over items k.. starting from the store they left. |
| `Reservation.ReserveSplit` | src/services/orders.service.ts:7-17 | Running the loop over `a + b` equals running it over `a` and, if that succeeded, over `b` from the store `a` left. |
| `Schema.Validate` | src/models/orders.model.ts:22-59 | An order is stored exactly when the payload passes the schema. The stored record passes total, creator and every item field through unchanged. A missing status becomes pending. Both timestamps are the creation time. Every stored order has item names present and item quantities in 1..5. |
| `Schema.ParseStatus` | src/models/orders.model.ts:52-55 | A status is admitted exactly when it is absent or one of pending, completed or cancelled. Absent means pending. An admitted string is stored as itself. |
| `Schema.ItemQtyOutOfRangeRejected` | src/models/orders.model.ts:41-45 | A single item with quantity outside 1..5 makes the whole order fail validation. |
| `Schema.EmptyOrderAdmitted` | src/models/orders.model.ts:28-46 | An order with no items passes the schema: no minimum length is declared. |
| `Schema.GrandTotalUnconstrained` | src/models/orders.model.ts:24-27 | Whether an order is stored never depends on the value of `grandTotal`, only on its presence. |
| `OrdersService.WithCreator` | src/services/orders.service.ts:18-21 | The payload to persist is the client's payload with `createdBy` set to the user, and every other field as sent. |
| `OrdersService.Create` | src/services/orders.service.ts:6-24 | The order is stored exactly when every item fits and the payload passes the schema. It is then appended with creator = user, total as sent, items unchanged, status as sent or `pending` when absent, and both timestamps the creation time. Stock is charged as the loop left it, even when the order is then rejected. A failure carries the loop's error, or the validation error when the loop got through. On any error no order is stored. Non-negative stock stays non-negative. |
| `OrdersService.CreatorNeverMissing` | src/services/orders.service.ts:18-22 | Since the service always sets `createdBy`, a payload that fits the stock and has its other fields admitted is always stored. |
| `OrdersService.OverLimitItemStillCharged` | src/services/orders.service.ts:7-22 | An item with quantity above 5 and enough stock is charged to the stock, then the order fails validation. No order is stored and the charge stays. |
| `OrdersService.ReplayStaysConsistent` | src/services/orders.service.ts:6-24 | Over any sequence of create calls, successful or not, stock never becomes negative and every stored order stays well formed. No order is removed and no product appears or disappears. |
| `Search.Occurs` | src/controllers/orders.controller.ts:106-115 | The scan finds the term exactly when some window of the text equals the term ignoring ASCII letter case. |
| `Search.OccursIgnoresCase` | src/controllers/orders.controller.ts:109-112 | Whether a term matches does not depend on the letter case of the term. |
| `OrderQuery.Scoped` | src/services/orders.service.ts:32 | The final filter keeps the caller's search and always names the requesting user as owner. |
| `OrderQuery.Select` | src/services/orders.service.ts:37 | The store query returns only stored orders, and only ones that pass the filter, never more than are stored. |
| `OrderQuery.SelectKeepsMatches` | src/services/orders.service.ts:37 | Every stored order that passes the filter is returned by the store query. |
| `OrderQuery.SelectCountsMatches` | src/services/orders.service.ts:37 | The store query returns each matching stored order as many times as it is stored, and no other order: equal documents are not merged. |
| `OrderQuery.Count` | src/services/orders.service.ts:34 | The count of documents a filter matches never exceeds the number stored; with `CountIsSelected` and `SelectCountsMatches` it is exactly the number of stored orders that pass the filter. |
| `OrderQuery.CountIsSelected` | src/services/orders.service.ts:34-37 | Counting the documents a filter matches agrees with the number of documents the same filter selects. |
| `OrderQuery.Newest` | src/services/orders.service.ts:40 | Sorting yields a permutation of its input, ordered by creation time descending. |
| `OrderQuery.Window` | src/services/orders.service.ts:38-39 | Skipping `skip` and limiting to `limit` yields the elements at positions `skip`, `skip+1`, …, at most `limit` of them. |
| `OrderQuery.CeilDiv` | src/services/orders.service.ts:35 | `totalPages` is the least page count holding `total` orders: `(c-1)*limit < total <= c*limit`. |
| `OrderQuery.FindAll` | src/services/orders.service.ts:26-49 | Every returned order is stored, owned by the requesting user whatever owner the caller's filter named, and matches the search. `total` is the number of matching orders and `totalPages` is `ceil(total/limit)`. `page` is echoed. The page is the newest-first matching list from position `(page-1)*limit`, at most `limit` orders. |
| `OrderQuery.Paginate` | src/services/orders.service.ts:35-40 | Page `p` of a list holds the entries from position `(p-1)*limit`, at most `limit` of them and none past the end, each taken from the list, in the list's order; it echoes `total`, `page` and `ceil(total/limit)`. |
| `OrderQuery.FindAllIsPaginated` | src/services/orders.service.ts:32-40 | A listing is exactly that page of the newest-first list of matching orders, with `total` their number. |
| `OrderQuery.EveryOrderOnItsPage` | src/services/orders.service.ts:37-40 | Pages cover a sorted list without gaps or overlaps: the entry at position i is entry `i % limit` of page `i / limit + 1`. |
| `OrderQuery.PagesBeyondLastAreEmpty` | src/services/orders.service.ts:35-40 | A page number above `totalPages` returns no orders. |
| `OrderQuery.PagesBeforeLastAreFull` | src/services/orders.service.ts:35-40 | Every page before the last holds exactly `limit` orders. |
| `OrderQuery.CallerOwnerOverridden` | src/services/orders.service.ts:32 | An owner in the caller's filter has no effect: the result equals that of the same filter with no owner. |
| `OrderQuery.ThirdPageOfTwentyFive` | src/services/orders.service.ts:34-40 | With 25 matching orders and page size 10 there are 3 pages, and page 3 holds 5 orders. |
| `OrdersController.ErrorMessage` | src/services/orders.service.ts:10-13 | Each error's text starts with its own prefix ("Product not found: ", "Insufficient quantity for product: " or "Order validation failed"), so the error kind can be read back. The rest is the id, `undefined` for an absent id, or the product name. |
| `OrdersController.HandleCreate` | src/controllers/orders.controller.ts:36-53 | Without a user: 403 with message "unauthorized" and data null, and the collections are unchanged (the service is not called). Otherwise: 201 with the created order, or 500 with the error message as data. The collections are as the service left them. |
| `OrdersController.SearchFilter` | src/controllers/orders.controller.ts:106-115 | An empty search term adds no filter. A non-empty term becomes the search filter. The controller never sets an owner. |
| `OrdersController.HandleFindAll` | src/controllers/orders.controller.ts:93-140 | Without a user: 403 "Unauthorized" regardless of the store. With absent parameters the defaults are 10, 1 and "". A store failure gives 500 with data null and the message under `error`. Otherwise 200 with the page of orders and `meta` copying `total`, `page` and `totalPages`. |
| `OrdersController.DefaultListing` | src/controllers/orders.controller.ts:100-104 | With no parameters: 200, page 1, at most 10 orders, all the user's own, newest first, and `total` counting all the user's orders. |
| `OrdersController.SearchedListing` | src/controllers/orders.controller.ts:106-122 | With a non-empty search and no store failure the answer is a list of orders, and every listed order is the user's own and has the term in its status or in some item's name, ignoring case. |
| `OrdersController.FailureEnvelopesDiffer` | src/controllers/orders.controller.ts:133-140 | A failed creation puts the message in `data` with no `error` field. A failed listing puts null in `data` and the message under `error`. |
| `OrdersController.MissingProductAnswered500` | src/controllers/orders.controller.ts:42-53 | An order naming an absent product is answered 500 with "Product not found: <id>". No order is stored and the earlier items stay charged. |
| `OrdersController.ShortStockAnswered500` | src/services/orders.service.ts:12-14 | An item asking for more than the stock the earlier items left is answered 500 with "Insufficient quantity for product: <name>". No order is stored and the earlier items stay charged. |
| `OrdersController.OverLimitOrderAnswered500` | src/controllers/orders.controller.ts:42-53 | A single item with quantity above 5 and enough stock is answered 500, yet the product's stock has been charged. |

## Left out

- Concurrency: the lost-update race between simultaneous create calls is not modelled. Calls run one at a time, as `OrdersService.Replay` sequences them.
- The document store's I/O mechanics are not modelled: `findById`, `save`, `countDocuments`, `create`, `async`/`await` and JSON serialisation as calls. Their results are modelled: the product collection is a map, the order collection a sequence, `countDocuments` is `OrderQuery.Count`, `find` is `OrderQuery.Select`, and `create` is `Schema.Validate` followed by an append.
- `populate("createdBy")` is not modelled: listed orders carry the creator id, not the user document.
- Store I/O failures during creation are not modelled. For the listing they are the `fault` parameter of `OrdersController.HandleFindAll`.
- Clock: the creation timestamp is the `now` parameter.
- The generated order `_id` is not modelled, nor any `_id`, `createdAt` or `updatedAt` a client sends. Fields outside the schema, which the store drops, are not modelled either.
- Search uses `$regex` with the `i` option, and the term is passed unescaped. The model treats the term as a literal and folds only ASCII letters. Regex metacharacters and Unicode case folding are not modelled.
- Prices and totals are integers. The source never does arithmetic on them, so their floating-point nature is irrelevant.
- `OrdersController.HandleFindAll` requires `limit >= 1` and `page >= 1`. The source does not validate them, and zero, negative or non-numeric values (`Number(...)` giving `NaN`) are not modelled.
- Ties among equal `createdAt` values: the sort leaves their order unspecified. The model's stable insertion sort is one admissible order. Each page is a separate query, so the store may order ties differently from one page to the next. `OrderQuery.EveryOrderOnItsPage` therefore describes real listings (no gaps or overlaps between pages) only when the `createdAt` values are distinct.
- A request body without `orderItems` is not modelled: the loop throws a type error before touching any stock. The payload type always carries a sequence.
- An item `qty` that is missing or not a number is not modelled: `qty` is an integer.
- Non-integer quantities are not modelled, although neither schema requires an integer `qty`, and neither is floating-point rounding in the decrement `product.qty -= item.qty`. For example, stock 2.3 with items 1 then 1.3 is refused by the source, because 2.3 - 1 rounds below 1.3, while `Reservation.AdmissibleIffTotalsFit` says such an order fits.
- Malformed product ids are not modelled: the store would raise a cast error. Ids are opaque strings.
- `Reservation.Take` and `Schema.Validate`: product ids are taken in canonical form and compared as exact strings. The store casts an id to an ObjectId, so another spelling of the same ObjectId (upper-case hex) finds the product and is stored in canonical form. Such spellings are not modelled: the model would report the product as not found.
- `OrdersController.ErrorMessage` and `OrdersController.HandleCreate`: a validation failure's message is modelled only by its fixed prefix "Order validation failed". The per-field detail the document mapper appends is not modelled.
- Products keep only `name` and `qty`. The description, images, price and category have no part in the workflow.
- The categories and products controllers (plain create/read/update/delete glue), server startup and the API documentation route are not part of this model.

=== FILE: controller.dfy ===
/**
 * The order endpoints' decision logic: the authorization short-circuit, the
 * query defaults and search filter, and how the service outcome becomes a
 * status code and a response envelope.
 */
module OrdersController {
  import opened Wrappers
  import opened Model
  import opened OrderQuery
  import opened OrdersService
  import Reservation
  import Schema

  /** What the `data` field of a response envelope holds. */
  datatype Data = NoData | OrderData(order: Order) | OrderList(orders: seq<Order>) | Text(text: string)

  /** The pagination block of a list response. */
  datatype Meta = Meta(total: nat, page: int, totalPages: nat)

  /** An HTTP status with its JSON envelope; `meta` and `error` appear only in some responses. */
  datatype Response = Response(status: int, message: string, data: Data, meta: Option<Meta>, error: Option<string>)

  /** The query string of the list endpoint, numbers already converted. */
  datatype ListParams = ListParams(limit: Option<int>, page: Option<int>, search: Option<string>)

  const DefaultLimit := 10
  const DefaultPage := 1

  const NotFoundPrefix := "Product not found: "
  const ShortStockPrefix := "Insufficient quantity for product: "

  /**
   * The message text of each error the creation path throws. The kind of
   * error can be read back from the prefix, and the id or product name from
   * the rest; an absent id is rendered as `undefined`.
   */
  function ErrorMessage(e: OrderError): (m: string)
    ensures e.ProductNotFound? <==> |NotFoundPrefix| <= |m| && m[..|NotFoundPrefix|] == NotFoundPrefix
    ensures e.InsufficientQuantity? <==> |ShortStockPrefix| <= |m| && m[..|ShortStockPrefix|] == ShortStockPrefix
    ensures e.ProductNotFound? ==> m[|NotFoundPrefix|..] == GetOr(e.id, "undefined")
    ensures e.InsufficientQuantity? ==> m[|ShortStockPrefix|..] == e.productName
    ensures e.ValidationFailed? <==> m == "Order validation failed"
  {
    var m := match e
      case ProductNotFound(id) => NotFoundPrefix + GetOr(id, "undefined")
      case InsufficientQuantity(name) => ShortStockPrefix + name
      case ValidationFailed => "Order validation failed";
    // The three texts already differ in their first letter.
    assert m[0] == (if e.ProductNotFound? then 'P' else if e.InsufficientQuantity? then 'I' else 'O');
    assert |m| >= |NotFoundPrefix| ==> m[..|NotFoundPrefix|][0] == m[0];
    assert |m| >= |ShortStockPrefix| ==> m[..|ShortStockPrefix|][0] == m[0];
    m
  }

  /**
   * `POST /orders`. Without a user the answer is 403 and the store is not
   * touched. Otherwise the service runs: its order comes back with 201, its
   * error message with 500, and the collections are as the service left
   * them either way.
   */
  function HandleCreate(user: Option<UserId>, body: OrderPayload, db: Db, now: int): (r: (Response, Db))
    ensures user.None? ==> r.0 == Response(403, "unauthorized", NoData, None, None) && r.1 == db
    ensures user.Some? ==> r.1 == Create(db, body, user.value, now).db
    ensures user.Some? && Create(db, body, user.value, now).result.Ok? ==>
      r.0 == Response(201, "Success create order.", OrderData(Create(db, body, user.value, now).result.value), None, None)
    ensures user.Some? && Create(db, body, user.value, now).result.Err? ==>
      r.0 == Response(500, "Failed create order.", Text(ErrorMessage(Create(db, body, user.value, now).result.error)), None, None)
  {
    match user
    case None => (Response(403, "unauthorized", NoData, None, None), db)
    case Some(u) =>
      var c := Create(db, body, u, now);
      match c.result
      case Ok(order) => (Response(201, "Success create order.", OrderData(order), None, None), c.db)
      case Err(e) => (Response(500, "Failed create order.", Text(ErrorMessage(e)), None, None), c.db)
  }

  /** The filter the list endpoint builds: a search only for a non-empty term, never an owner. */
  function SearchFilter(term: string): (q: Query)
    ensures q.createdBy.None?
    ensures q.search.Some? <==> term != ""
    ensures q.search.Some? ==> q.search.value == term
  {
    if term == "" then Query(None, None) else Query(Some(term), None)
  }

  /**
   * `GET /orders`. Without a user the answer is 403 and the store is not
   * read. Absent parameters default to limit 10, page 1 and an empty search.
   * A store failure is answered with 500, the message under `error`;
   * otherwise 200 with the page of orders and `meta` copied from the service.
   */
  function HandleFindAll(user: Option<UserId>, params: ListParams, orders: seq<Order>, fault: Option<string>): (r: Response)
    requires params.limit.Some? ==> params.limit.value >= 1
    requires params.page.Some? ==> params.page.value >= 1
    ensures user.None? ==> r == Response(403, "Unauthorized", NoData, None, None)
    ensures user.Some? && fault.Some? ==> r == Response(500, "Failed to get order history", NoData, None, fault)
    ensures user.Some? && fault.None? ==>
      var p := FindAll(orders, user.value, SearchFilter(GetOr(params.search, "")),
                       GetOr(params.limit, DefaultLimit), GetOr(params.page, DefaultPage));
      r == Response(200, "Success get user's order history.", OrderList(p.orders),
                    Some(Meta(p.total, p.page, p.totalPages)), None)
  {
    match user
    case None => Response(403, "Unauthorized", NoData, None, None)
    case Some(u) =>
      var limit := GetOr(params.limit, DefaultLimit);
      var page := GetOr(params.page, DefaultPage);
      var search := GetOr(params.search, "");
      if fault.Some? then
        Response(500, "Failed to get order history", NoData, None, fault)
      else
        var p := FindAll(orders, u, SearchFilter(search), limit, page);
        Response(200, "Success get user's order history.", OrderList(p.orders),
                 Some(Meta(p.total, p.page, p.totalPages)), None)
  }

  /**
   * With no parameters the first page of at most ten orders comes back, all
   * of them the user's own, newest first, and `total` counts all the user's
   * orders.
   */
  lemma DefaultListing(user: UserId, orders: seq<Order>)
    ensures var r := HandleFindAll(Some(user), ListParams(None, None, None), orders, None);
      && r.status == 200
      && r.meta.Some? && r.meta.value.page == 1
      && r.meta.value.total == |Select(orders, Query(None, Some(user)))|
      && r.data.OrderList? && |r.data.orders| <= 10
      && Descending(r.data.orders)
      && (forall o :: o in r.data.orders ==> o in orders && o.createdBy == user)
  {
    assert Scoped(Query(None, None), user) == Query(None, Some(user));
  }

  /** A non-empty search returns only the user's orders whose status or some item name contains the term. */
  lemma SearchedListing(user: UserId, params: ListParams, orders: seq<Order>)
    requires params.limit.Some? ==> params.limit.value >= 1
    requires params.page.Some? ==> params.page.value >= 1
    requires params.search.Some? && params.search.value != ""
    ensures HandleFindAll(Some(user), params, orders, None).data.OrderList?
    ensures forall o :: o in HandleFindAll(Some(user), params, orders, None).data.orders ==>
      o in orders && o.createdBy == user && TermMatches(o, params.search.value)
  {
  }

  /**
   * The two failure envelopes differ: creation puts the error message in
   * `data`, listing puts `null` in `data` and the message under `error`.
   */
  lemma FailureEnvelopesDiffer(user: UserId, body: OrderPayload, db: Db, now: int, params: ListParams, msg: string)
    requires params.limit.Some? ==> params.limit.value >= 1
    requires params.page.Some? ==> params.page.value >= 1
    requires Create(db, body, user, now).result.Err?
    ensures HandleCreate(Some(user), body, db, now).0.data.Text?
    ensures HandleCreate(Some(user), body, db, now).0.error.None?
    ensures HandleFindAll(Some(user), params, db.orders, Some(msg)).data.NoData?
    ensures HandleFindAll(Some(user), params, db.orders, Some(msg)).error == Some(msg)
  {
  }

  /**
   * An order naming a product that does not exist is answered with 500 and
   * the "not found" message, and no order is stored; the items before it
   * stay charged.
   */
  lemma MissingProductAnswered500(user: UserId, body: OrderPayload, db: Db, now: int, k: int, s: Store)
    requires 0 <= k < |body.orderItems|
    requires Reservation.Reserve(db.products, body.orderItems[..k]) == Reservation.Reserved(s)
    requires body.orderItems[k].productId.None? || body.orderItems[k].productId.value !in s
    ensures HandleCreate(Some(user), body, db, now).0.status == 500
    ensures HandleCreate(Some(user), body, db, now).0.data
         == Text("Product not found: " + GetOr(body.orderItems[k].productId, "undefined"))
    ensures HandleCreate(Some(user), body, db, now).1 == Db(s, db.orders)
  {
    Reservation.MissingProductAborts(db.products, body.orderItems, k, s);
  }

  /** An item asking for more than the stock its predecessors left is answered 500 naming the product; the earlier charges stay. */
  lemma ShortStockAnswered500(user: UserId, body: OrderPayload, db: Db, now: int, k: int, s: Store)
    requires 0 <= k < |body.orderItems|
    requires Reservation.Reserve(db.products, body.orderItems[..k]) == Reservation.Reserved(s)
    requires body.orderItems[k].productId.Some? && body.orderItems[k].productId.value in s
    requires s[body.orderItems[k].productId.value].qty < body.orderItems[k].qty
    ensures HandleCreate(Some(user), body, db, now).0.status == 500
    ensures HandleCreate(Some(user), body, db, now).0.data
         == Text("Insufficient quantity for product: " + s[body.orderItems[k].productId.value].name)
    ensures HandleCreate(Some(user), body, db, now).1 == Db(s, db.orders)
  {
    Reservation.ShortStockAborts(db.products, body.orderItems, k, s);
  }

  /**
   * A single item over the quantity limit whose product has the stock is
   * answered with 500, yet the product's stock has been charged.
   */
  lemma OverLimitOrderAnswered500(user: UserId, body: OrderPayload, db: Db, now: int)
    requires |body.orderItems| == 1
    requires body.orderItems[0].productId.Some?
    requires body.orderItems[0].productId.value in db.products
    requires Schema.MaxItemQty < body.orderItems[0].qty <= db.products[body.orderItems[0].productId.value].qty
    ensures HandleCreate(Some(user), body, db, now).0.status == 500
    ensures HandleCreate(Some(user), body, db, now).1.orders == db.orders
    ensures HandleCreate(Some(user), body, db, now).1.products[body.orderItems[0].productId.value].qty
         == db.products[body.orderItems[0].productId.value].qty - body.orderItems[0].qty
  {
    OverLimitItemStillCharged(db, body, user, now);
  }
}

=== FILE: model.dfy ===
/**
 * The records of the order workflow: products as the inventory stores them,
 * order payloads as a client sends them, and orders as the store keeps them.
 */
module Model {
  import opened Wrappers

  /** Document identities are opaque strings (the hex form of an ObjectId). */
  type ProductId = string
  type UserId = string

  /** A product document; only the name and the stock count take part in ordering. */
  datatype Product = Product(name: string, qty: int)

  /** The product collection, keyed by document id. */
  type Store = map<ProductId, Product>

  /** No product holds negative stock. */
  predicate NonNegative(store: Store)
  {
    forall id :: id in store ==> store[id].qty >= 0
  }

  /**
   * One line item as it arrives in a request body: every field the schema
   * marks as required may still be missing here.
   */
  datatype ItemPayload = ItemPayload(
    name: Option<string>,
    productId: Option<ProductId>,
    price: Option<int>,
    qty: int)

  /** An order request body, after the service has had the chance to set `createdBy`. */
  datatype OrderPayload = OrderPayload(
    grandTotal: Option<int>,
    orderItems: seq<ItemPayload>,
    createdBy: Option<UserId>,
    status: Option<string>)

  datatype Status = Pending | Completed | Cancelled

  /** The string a status is stored and searched as. */
  function StatusName(s: Status): string
  {
    match s
    case Pending => "pending"
    case Completed => "completed"
    case Cancelled => "cancelled"
  }

  /** A line item of a stored order: the required fields are present. */
  datatype Item = Item(name: string, productId: ProductId, price: int, qty: int)

  /** An order document as persisted, with the timestamps the store adds. */
  datatype Order = Order(
    grandTotal: int,
    orderItems: seq<Item>,
    createdBy: UserId,
    status: Status,
    createdAt: int,
    updatedAt: int)

  /** The errors the order-creation path throws. */
  datatype OrderError =
    | ProductNotFound(id: Option<ProductId>)
    | InsufficientQuantity(productName: string)
    | ValidationFailed

  /** The product collection and the order collection together. */
  datatype Db = Db(products: Store, orders: seq<Order>)
}

=== FILE: query.dfy ===
/**
 * The order list query: scope the caller's filter to the requesting user,
 * count the matching orders, sort them newest first, skip the earlier pages
 * and take one page.
 */
module OrderQuery {
  import opened Wrappers
  import opened Model
  import opened Search

  /** A filter over the order collection: an optional search term and an optional owner. */
  datatype Query = Query(search: Option<string>, createdBy: Option<UserId>)

  /** What the list operation returns alongside the page of orders. */
  datatype Page = Page(orders: seq<Order>, total: nat, page: int, totalPages: nat)

  /** The search term occurs in the order's status or in the name of any of its items. */
  predicate TermMatches(o: Order, term: string)
  {
    Occurs(StatusName(o.status), term) || SomeNameMatches(o.orderItems, term)
  }

  /** The search term occurs in the name of some item. */
  predicate SomeNameMatches(items: seq<Item>, term: string)
  {
    |items| > 0 && (Occurs(items[0].name, term) || SomeNameMatches(items[1..], term))
  }

  /** An order passes a filter. */
  predicate Selects(q: Query, o: Order)
  {
    && (q.createdBy.Some? ==> o.createdBy == q.createdBy.value)
    && (q.search.Some? ==> TermMatches(o, q.search.value))
  }

  /** The caller's filter with its owner replaced by the requesting user. */
  function Scoped(q: Query, user: UserId): (fq: Query)
    ensures fq.search == q.search && fq.createdBy == Some(user)
  {
    q.(createdBy := Some(user))
  }

  /** The orders a filter selects, in collection order: only stored orders that pass it. */
  function Select(orders: seq<Order>, q: Query): (r: seq<Order>)
    ensures forall o {:trigger o in r} :: o in r ==> o in orders && Selects(q, o)
    ensures |r| <= |orders|
  {
    if |orders| == 0 then []
    else (if Selects(q, orders[0]) then [orders[0]] else []) + Select(orders[1..], q)
  }

  /** Every stored order that passes a filter is among those it selects. */
  lemma {:induction false} SelectKeepsMatches(orders: seq<Order>, q: Query, o: Order)
    requires o in orders && Selects(q, o)
    ensures o in Select(orders, q)
  {
    if orders[0] != o {
      SelectKeepsMatches(orders[1..], q, o);
    }
  }

  /** Each order occurs in the selection as often as it is stored if it passes the filter, and not at all otherwise. */
  lemma {:induction false} SelectCountsMatches(orders: seq<Order>, q: Query)
    ensures forall o :: multiset(Select(orders, q))[o] == if Selects(q, o) then multiset(orders)[o] else 0
  {
    if |orders| > 0 {
      assert orders == [orders[0]] + orders[1..];
      SelectCountsMatches(orders[1..], q);
    }
  }

  /** The number of documents a filter matches, counted on its own. */
  function Count(orders: seq<Order>, q: Query): (n: nat)
    ensures n <= |orders|
  {
    if |orders| == 0 then 0
    else (if Selects(q, orders[0]) then 1 else 0) + Count(orders[1..], q)
  }

  /** The count agrees with the number of orders the same filter selects. */
  lemma {:induction false} CountIsSelected(orders: seq<Order>, q: Query)
    ensures Count(orders, q) == |Select(orders, q)|
  {
    if |orders| > 0 {
      CountIsSelected(orders[1..], q);
    }
  }

  /** Newest first: creation times never increase along the sequence. */
  predicate Descending(s: seq<Order>)
  {
    forall i, j :: 0 <= i < j < |s| ==> s[i].createdAt >= s[j].createdAt
  }

  /** Places `o` into a newest-first sequence. */
  function Insert(o: Order, s: seq<Order>): (r: seq<Order>)
    requires Descending(s)
    ensures Descending(r)
    ensures |r| == |s| + 1
    ensures multiset(r) == multiset(s) + multiset{o}
  {
    if |s| == 0 || s[0].createdAt <= o.createdAt then
      DescendingCons(o, s);
      [o] + s
    else
      var rest := Insert(o, s[1..]);
      assert s == [s[0]] + s[1..];
      forall x | x in rest ensures x.createdAt <= s[0].createdAt {
        assert x in multiset(rest);
        assert x in s[1..] || x == o;
      }
      DescendingCons(s[0], rest);
      [s[0]] + rest
  }

  lemma DescendingCons(x: Order, t: seq<Order>)
    requires Descending(t)
    requires forall y :: y in t ==> y.createdAt <= x.createdAt
    ensures Descending([x] + t)
  {
    forall i, j | 0 <= i < j < |t| + 1 ensures ([x] + t)[i].createdAt >= ([x] + t)[j].createdAt {
      if i == 0 {
        assert ([x] + t)[j] == t[j - 1];
      } else {
        assert ([x] + t)[i] == t[i - 1] && ([x] + t)[j] == t[j - 1];
      }
    }
  }

  /** Sorts by creation time, newest first. */
  function Newest(s: seq<Order>): (r: seq<Order>)
    ensures |r| == |s|
    ensures Descending(r)
    ensures multiset(r) == multiset(s)
  {
    if |s| == 0 then []
    else
      assert s == [s[0]] + s[1..];
      Insert(s[0], Newest(s[1..]))
  }

  function Min(a: int, b: int): int { if a <= b then a else b }

  /** Drops `skip` elements and takes at most `limit` of the rest. */
  function Window(s: seq<Order>, skip: nat, limit: nat): (r: seq<Order>)
    ensures |r| == if skip >= |s| then 0 else Min(limit, |s| - skip)
    ensures forall j :: 0 <= j < |r| ==> r[j] == s[skip + j]
  {
    s[Min(skip, |s|)..Min(skip + limit, |s|)]
  }

  /**
   * Integer division rounded up: the number of pages of size `d` that hold
   * `n` items, counted one full page at a time.
   */
  function CeilDiv(n: nat, d: int): (c: nat)
    requires d >= 1
    ensures (c - 1) * d < n <= c * d
    decreases n
  {
    if n == 0 then 0 else 1 + CeilDiv(if n <= d then 0 else n - d, d)
  }

  /**
   * The order list for `user`. Whatever owner the caller's filter names, the
   * result is scoped to the requesting user; `total` is the number of their
   * matching orders, `totalPages` is that number divided by `limit` rounded
   * up, `page` is echoed, and the orders are those at positions
   * `(page-1)*limit` onward of the matching orders sorted newest first,
   * at most `limit` of them.
   */
  function FindAll(orders: seq<Order>, user: UserId, q: Query, limit: int, page: int): (r: Page)
    requires limit >= 1 && page >= 1
    ensures r.page == page
    ensures r.total == |Select(orders, Scoped(q, user))|
    ensures r.totalPages == CeilDiv(r.total, limit)
    ensures |r.orders| == if Offset(page, limit) >= r.total then 0 else Min(limit, r.total - Offset(page, limit))
    ensures forall j :: 0 <= j < |r.orders| ==>
      r.orders[j] == Newest(Select(orders, Scoped(q, user)))[Offset(page, limit) + j]
    ensures forall o :: o in r.orders ==>
      o in orders && o.createdBy == user && (q.search.Some? ==> TermMatches(o, q.search.value))
    ensures Descending(r.orders)
  {
    var fq := Scoped(q, user);
    var sorted := Newest(Select(orders, fq));
    SortedSelection(orders, fq);
    Paginate(sorted, Count(orders, fq), limit, page)
  }

  /** Cuts page `page` of size `limit` out of a list of `total` orders. */
  function Paginate(sorted: seq<Order>, total: nat, limit: int, page: int): (r: Page)
    requires limit >= 1 && page >= 1
    requires total == |sorted|
    ensures r.page == page && r.total == total
    ensures r.totalPages == CeilDiv(total, limit)
    ensures |r.orders| == if Offset(page, limit) >= total then 0 else Min(limit, total - Offset(page, limit))
    ensures forall j :: 0 <= j < |r.orders| ==> r.orders[j] == sorted[Offset(page, limit) + j]
    ensures forall o :: o in r.orders ==> o in sorted
    ensures Descending(sorted) ==> Descending(r.orders)
  {
    var skip := Offset(page, limit);
    WindowKeeps(sorted, skip, limit);
    Page(Window(sorted, skip, limit), total, page, CeilDiv(total, limit))
  }

  /** A window holds only entries of its list, in the list's order. */
  lemma WindowKeeps(s: seq<Order>, skip: nat, limit: nat)
    ensures forall o :: o in Window(s, skip, limit) ==> o in s
    ensures Descending(s) ==> Descending(Window(s, skip, limit))
  {
    var w := Window(s, skip, limit);
    forall o | o in w ensures o in s {
      var j :| 0 <= j < |w| && w[j] == o;
      assert o == s[skip + j];
    }
    if Descending(s) {
      forall i, j | 0 <= i < j < |w| ensures w[i].createdAt >= w[j].createdAt {
        assert w[i] == s[skip + i] && w[j] == s[skip + j];
      }
    }
  }

  /**
   * The number of orders the pages before `page` hold, accumulated page by
   * page; `OffsetIsProduct` shows it is the skip count `(page - 1) * limit`.
   */
  function Offset(page: int, limit: int): nat
    requires limit >= 1 && page >= 1
    decreases page
  {
    if page == 1 then 0 else Offset(page - 1, limit) + limit
  }

  lemma {:induction false} OffsetIsProduct(page: int, limit: int)
    requires limit >= 1 && page >= 1
    ensures Offset(page, limit) == (page - 1) * limit
    decreases page
  {
    if page > 1 {
      OffsetIsProduct(page - 1, limit);
    }
  }

  /** Sorting the selection keeps its size and its members; the count is that size. */
  lemma SortedSelection(orders: seq<Order>, fq: Query)
    ensures |Newest(Select(orders, fq))| == Count(orders, fq) == |Select(orders, fq)|
    ensures forall o :: o in Newest(Select(orders, fq)) ==> o in orders && Selects(fq, o)
  {
    var sel := Select(orders, fq);
    var sorted := Newest(sel);
    CountIsSelected(orders, fq);
    assert |multiset(sorted)| == |multiset(sel)|;
    forall o | o in sorted ensures o in sel {
      assert o in multiset(sorted);
    }
  }

  /**
   * Pages cover a sorted list without gaps or overlap: the order at
   * position `i` is entry `i % limit` of page `i / limit + 1`. With
   * `FindAllIsPaginated` this holds of the listings the model computes. The
   * store runs one query per page and may order equal `createdAt` values
   * differently each time, so for real listings it holds only when creation
   * times are distinct.
   */
  lemma EveryOrderOnItsPage(sorted: seq<Order>, limit: int, i: int) returns (page: int, j: int)
    requires limit >= 1 && 0 <= i < |sorted|
    ensures page == i / limit + 1 && j == i % limit && page >= 1
    ensures j < |Paginate(sorted, |sorted|, limit, page).orders|
    ensures Paginate(sorted, |sorted|, limit, page).orders[j] == sorted[i]
  {
    page, j := PageCoordinates(i, limit);
    PaginateEntry(sorted, limit, page, j);
  }

  /** Entry `j` of page `page` is the order at position `(page - 1) * limit + j`, whenever that position exists. */
  lemma PaginateEntry(sorted: seq<Order>, limit: int, page: int, j: int)
    requires limit >= 1 && page >= 1 && 0 <= j < limit && Offset(page, limit) + j < |sorted|
    ensures j < |Paginate(sorted, |sorted|, limit, page).orders|
    ensures Paginate(sorted, |sorted|, limit, page).orders[j] == sorted[Offset(page, limit) + j]
  {
  }

  /** A listing is the page of the newest-first matching orders. */
  lemma FindAllIsPaginated(orders: seq<Order>, user: UserId, q: Query, limit: int, page: int)
    requires limit >= 1 && page >= 1
    ensures FindAll(orders, user, q, limit, page)
         == Paginate(Newest(Select(orders, Scoped(q, user))), |Select(orders, Scoped(q, user))|, limit, page)
  {
    SortedSelection(orders, Scoped(q, user));
  }

  /** The page and the entry on it of position `i`. */
  lemma PageCoordinates(i: nat, limit: int) returns (page: int, j: int)
    requires limit >= 1
    ensures page == i / limit + 1 && j == i % limit
    ensures page >= 1 && 0 <= j < limit && i == Offset(page, limit) + j
  {
    page, j := i / limit + 1, i % limit;
    OffsetIsProduct(page, limit);
  }

  lemma MulMonotone(a: int, b: int, c: int)
    requires 0 <= a <= b && c >= 0
    ensures a * c <= b * c
  {
  }

  /** Past the last page, the offset reaches beyond the last matching order. */
  lemma OffsetPastLastPage(total: nat, limit: int, page: int)
    requires limit >= 1 && page > CeilDiv(total, limit)
    ensures Offset(page, limit) >= total
  {
    MulMonotone(CeilDiv(total, limit), page - 1, limit);
    OffsetIsProduct(page, limit);
  }

  /** Before the last page, at least `limit` matching orders remain from the offset on. */
  lemma OffsetBeforeLastPage(total: nat, limit: int, page: int)
    requires limit >= 1 && 1 <= page < CeilDiv(total, limit)
    ensures total - Offset(page, limit) > limit
  {
    MulMonotone(page, CeilDiv(total, limit) - 1, limit);
    OffsetIsProduct(page, limit);
  }

  /** A page past the last one, `ceil(total / limit)`, is empty. */
  lemma PagesBeyondLastAreEmpty(orders: seq<Order>, user: UserId, q: Query, limit: int, page: int)
    requires limit >= 1 && page >= 1
    requires page > CeilDiv(|Select(orders, Scoped(q, user))|, limit)
    ensures FindAll(orders, user, q, limit, page).orders == []
  {
    OffsetPastLastPage(|Select(orders, Scoped(q, user))|, limit, page);
  }

  /** Every page before the last one, `ceil(total / limit)`, is full. */
  lemma PagesBeforeLastAreFull(orders: seq<Order>, user: UserId, q: Query, limit: int, page: int)
    requires limit >= 1 && page >= 1
    requires page < CeilDiv(|Select(orders, Scoped(q, user))|, limit)
    ensures |FindAll(orders, user, q, limit, page).orders| == limit
  {
    OffsetBeforeLastPage(|Select(orders, Scoped(q, user))|, limit, page);
  }

  /** An owner in the caller's filter has no effect: the result is the same as with no owner at all. */
  lemma CallerOwnerOverridden(orders: seq<Order>, user: UserId, q: Query, other: UserId, limit: int, page: int)
    requires limit >= 1 && page >= 1
    ensures FindAll(orders, user, q.(createdBy := Some(other)), limit, page)
         == FindAll(orders, user, q.(createdBy := None), limit, page)
  {
  }

  /** 25 matching orders with page size 10: three pages, the third holding the last five. */
  lemma ThirdPageOfTwentyFive(orders: seq<Order>, user: UserId, q: Query)
    requires |Select(orders, Scoped(q, user))| == 25
    ensures FindAll(orders, user, q, 10, 3).total == 25
    ensures FindAll(orders, user, q, 10, 3).totalPages == 3
    ensures |FindAll(orders, user, q, 10, 3).orders| == 5
  {
  }
}

=== FILE: reservation.dfy ===
/**
 * Stock reservation: the loop of the order-creation service that walks the
 * requested line items in order, looks each product up, refuses a missing
 * product or short stock, and otherwise decrements and saves the product at
 * once. Nothing is rolled back when a later item fails.
 */
module Reservation {
  import opened Wrappers
  import opened Model

  /** Where the loop ended: every item reserved, or aborted by an error. Either way, the store it left. */
  datatype Outcome =
    | Reserved(store: Store)
    | Aborted(error: OrderError, store: Store)

  /** Some item of `items` names product `id`. */
  predicate Names(items: seq<ItemPayload>, id: ProductId)
  {
    |items| > 0 && (items[0].productId == Some(id) || Names(items[1..], id))
  }

  /** The total quantity `items` request of product `id`. */
  function Demand(items: seq<ItemPayload>, id: ProductId): int
  {
    if |items| == 0 then 0
    else (if items[0].productId == Some(id) then items[0].qty else 0) + Demand(items[1..], id)
  }

  /**
   * One iteration of the loop: look up the item's product, check its stock,
   * decrement it. It succeeds exactly when the product exists and its stock
   * is at least the quantity; then only that product's stock changes, by
   * exactly the quantity. A missing product is reported with the item's own
   * id, short stock with the product's name.
   */
  function Take(store: Store, item: ItemPayload): (r: Result<Store, OrderError>)
    ensures r.Ok? <==> item.productId.Some? && item.productId.value in store
                       && item.qty <= store[item.productId.value].qty
    ensures (item.productId.None? || item.productId.value !in store) ==>
      r == Err(ProductNotFound(item.productId))
    ensures item.productId.Some? && item.productId.value in store && r.Err? ==>
      r.error == InsufficientQuantity(store[item.productId.value].name)
    ensures r.Ok? ==> r.value.Keys == store.Keys
    ensures r.Ok? ==> forall id :: id in store && Some(id) != item.productId ==> r.value[id] == store[id]
    ensures r.Ok? ==> var id := item.productId.value;
      r.value[id].name == store[id].name && r.value[id].qty + item.qty == store[id].qty
  {
    match item.productId
    case None => Err(ProductNotFound(None))
    case Some(id) =>
      if id !in store then Err(ProductNotFound(Some(id)))
      else if store[id].qty < item.qty then Err(InsufficientQuantity(store[id].name))
      else Ok(store[id := store[id].(qty := store[id].qty - item.qty)])
  }

  /**
   * The reservation loop. Whatever the outcome, the set of products and their
   * names stay the same, a product no item names is left untouched, and stock
   * that started non-negative stays non-negative.
   */
  function Reserve(store: Store, items: seq<ItemPayload>): (r: Outcome)
    ensures r.store.Keys == store.Keys
    ensures forall id :: id in store ==> r.store[id].name == store[id].name
    ensures forall id :: id in store && !Names(items, id) ==> r.store[id] == store[id]
    ensures NonNegative(store) ==> NonNegative(r.store)
    ensures r.Aborted? ==> r.error.ProductNotFound? || r.error.InsufficientQuantity?
    decreases |items|
  {
    if |items| == 0 then Reserved(store)
    else
      match Take(store, items[0])
      case Err(e) => Aborted(e, store)
      case Ok(next) =>
        Reserve(next, items[1..])
  }

  /**
   * Item `k` can be reserved: its product exists and the stock left after
   * items `0..k-1` have been charged covers its quantity.
   */
  predicate Fits(store: Store, items: seq<ItemPayload>, k: int)
    requires 0 <= k < |items|
  {
    match items[k].productId
    case None => false
    case Some(id) => id in store && items[k].qty <= store[id].qty - Demand(items[..k], id)
  }

  /** Every item fits against the stock its predecessors left. */
  predicate Admissible(store: Store, items: seq<ItemPayload>)
  {
    forall k :: 0 <= k < |items| ==> Fits(store, items, k)
  }

  /** The store with every product charged its whole demand. */
  function Debit(store: Store, items: seq<ItemPayload>): map<ProductId, Product>
  {
    map id | id in store :: store[id].(qty := store[id].qty - Demand(items, id))
  }

  lemma {:induction false} DemandAppend(a: seq<ItemPayload>, b: seq<ItemPayload>, id: ProductId)
    ensures Demand(a + b, id) == Demand(a, id) + Demand(b, id)
    decreases |a|
  {
    if |a| == 0 {
      assert a + b == b;
    } else {
      assert (a + b)[1..] == a[1..] + b;
      DemandAppend(a[1..], b, id);
    }
  }

  /** Fitness of item `k + 1` against `store` is fitness of item `k` of the tail against the store the head left. */
  lemma FitsShift(store: Store, items: seq<ItemPayload>, next: Store, k: int)
    requires 0 <= k < |items| - 1
    requires Take(store, items[0]) == Ok(next)
    ensures Fits(store, items, k + 1) <==> Fits(next, items[1..], k)
  {
    assert items[1..][k] == items[k + 1];
    assert items[..k + 1][1..] == items[1..][..k];
    match items[k + 1].productId
    case None =>
    case Some(id) =>
  }

  /** The loop reserves every item exactly when every item fits. */
  lemma {:induction false} ReserveSucceedsIffAdmissible(store: Store, items: seq<ItemPayload>)
    ensures Reserve(store, items).Reserved? <==> Admissible(store, items)
    decreases |items|
  {
    if |items| > 0 {
      assert Fits(store, items, 0) <==> Take(store, items[0]).Ok?;
      match Take(store, items[0])
      case Err(_) =>
      case Ok(next) =>
        ReserveSucceedsIffAdmissible(next, items[1..]);
        forall k | 0 <= k < |items| - 1
          ensures Fits(store, items, k + 1) <==> Fits(next, items[1..], k)
        {
          FitsShift(store, items, next, k);
        }
        if Admissible(next, items[1..]) {
          forall k | 0 <= k < |items| ensures Fits(store, items, k) {
            if k > 0 {
              assert Fits(next, items[1..], k - 1);
            }
          }
        }
        if Admissible(store, items) {
          forall k | 0 <= k < |items| - 1 ensures Fits(next, items[1..], k) {
            assert Fits(store, items, k + 1);
          }
        }
    }
  }

  /** When every item is reserved, each product has lost exactly the total quantity requested of it. */
  lemma {:induction false} ReservedChargesDemand(store: Store, items: seq<ItemPayload>)
    requires Reserve(store, items).Reserved?
    ensures Reserve(store, items).store == Debit(store, items)
    decreases |items|
  {
    if |items| == 0 {
      assert forall id :: id in store ==> store[id].(qty := store[id].qty - 0) == store[id];
    } else {
      var next := Take(store, items[0]).value;
      ReservedChargesDemand(next, items[1..]);
      var d := Debit(store, items);
      var d' := Debit(next, items[1..]);
      assert d.Keys == d'.Keys;
      forall id | id in d ensures d[id] == d'[id] {
      }
      assert d == d';
    }
  }

  /** Running the loop over `a + b` is running it over `a` and, if that succeeded, over `b` from where it left off. */
  lemma {:induction false} ReserveSplit(store: Store, a: seq<ItemPayload>, b: seq<ItemPayload>)
    ensures Reserve(store, a + b) ==
      match Reserve(store, a)
      case Reserved(s) => Reserve(s, b)
      case Aborted(e, s) => Aborted(e, s)
    decreases |a|
  {
    if |a| == 0 {
      assert a + b == b;
    } else {
      assert (a + b)[0] == a[0];
      assert (a + b)[1..] == a[1..] + b;
      match Take(store, a[0])
      case Err(_) =>
      case Ok(next) => ReserveSplit(next, a[1..], b);
    }
  }

  /** Once items `0..k-1` are reserved leaving `s`, the loop carries on from `s` with items `k..`. */
  lemma ReserveResumes(store: Store, items: seq<ItemPayload>, k: int, s: Store)
    requires 0 <= k <= |items|
    requires Reserve(store, items[..k]) == Reserved(s)
    ensures Reserve(store, items) == Reserve(s, items[k..])
  {
    assert items == items[..k] + items[k..];
    ReserveSplit(store, items[..k], items[k..]);
  }

  /**
   * If item `k`'s product is missing from the store `s` that items
   * `0..k-1` left, the loop aborts with "product not found" and leaves `s`:
   * the earlier decrements stay.
   */
  lemma MissingProductAborts(store: Store, items: seq<ItemPayload>, k: int, s: Store)
    requires 0 <= k < |items|
    requires Reserve(store, items[..k]) == Reserved(s)
    requires items[k].productId.None? || items[k].productId.value !in s
    ensures Reserve(store, items) == Aborted(ProductNotFound(items[k].productId), s)
  {
    var rest := items[k..];
    assert rest[0] == items[k];
    assert Take(s, rest[0]) == Err(ProductNotFound(items[k].productId));
    ReserveAbortStep(s, rest);
    ReserveResumes(store, items, k, s);
  }

  /**
   * If the stock that items `0..k-1` left is strictly below item `k`'s
   * quantity, the loop aborts with "insufficient quantity" naming the
   * product and leaves that store: the earlier decrements stay.
   */
  lemma ShortStockAborts(store: Store, items: seq<ItemPayload>, k: int, s: Store)
    requires 0 <= k < |items|
    requires Reserve(store, items[..k]) == Reserved(s)
    requires items[k].productId.Some? && items[k].productId.value in s
    requires s[items[k].productId.value].qty < items[k].qty
    ensures Reserve(store, items) == Aborted(InsufficientQuantity(s[items[k].productId.value].name), s)
  {
    var rest := items[k..];
    assert rest[0] == items[k];
    assert Take(s, rest[0]) == Err(InsufficientQuantity(s[items[k].productId.value].name));
    ReserveAbortStep(s, rest);
    ReserveResumes(store, items, k, s);
  }

  /**
   * Stock exactly equal to item `k`'s quantity is enough: item `k` is
   * reserved and leaves that product at zero, every other product as it was.
   */
  lemma ExactStockEmpties(store: Store, items: seq<ItemPayload>, k: int, s: Store)
    requires 0 <= k < |items|
    requires Reserve(store, items[..k]) == Reserved(s)
    requires items[k].productId.Some? && items[k].productId.value in s
    requires s[items[k].productId.value].qty == items[k].qty
    ensures Reserve(store, items[..k + 1])
         == Reserved(s[items[k].productId.value := s[items[k].productId.value].(qty := 0)])
  {
    ExactTakeEmpties(s, items[k]);
    ReserveNext(store, items, k, s);
  }

  /** Once items `0..k-1` are reserved, reserving item `k` as well is reserving it alone from the store they left. */
  lemma ReserveNext(store: Store, items: seq<ItemPayload>, k: int, s: Store)
    requires 0 <= k < |items|
    requires Reserve(store, items[..k]) == Reserved(s)
    ensures Reserve(store, items[..k + 1]) == Reserve(s, [items[k]])
  {
    var prefix := items[..k + 1];
    assert prefix[..k] == items[..k] && prefix[k..] == [items[k]];
    ReserveResumes(store, prefix, k, s);
  }

  /** A single item asking for exactly the stock left empties that product. */
  lemma ExactTakeEmpties(s: Store, item: ItemPayload)
    requires item.productId.Some? && item.productId.value in s
    requires s[item.productId.value].qty == item.qty
    ensures Reserve(s, [item]) == Reserved(s[item.productId.value := s[item.productId.value].(qty := 0)])
  {
    var id := item.productId.value;
    var next := s[id := s[id].(qty := 0)];
    assert s[id].(qty := s[id].qty - item.qty) == s[id].(qty := 0);
    TakeFits(s, item);
    ReserveStep(s, [item], next);
    assert [item][1..] == [];
  }

  /**
   * On failure there is an item `k` such that items `0..k-1` were all
   * reserved, the store the loop leaves is exactly the store after them
   * (no rollback), and item `k` is the one whose step threw the error.
   */
  function FailurePoint(store: Store, items: seq<ItemPayload>): (k: nat)
    requires Reserve(store, items).Aborted?
    ensures k < |items|
    ensures Reserve(store, items[..k]) == Reserved(Reserve(store, items).store)
    ensures Take(Reserve(store, items).store, items[k]) == Err(Reserve(store, items).error)
    decreases |items|
  {
    var first := Take(store, items[0]);
    if first.Err? then
      assert items[..0] == [];
      0
    else
      var next := first.value;
      ReserveStep(store, items, next);
      var j := FailurePoint(next, items[1..]);
      assert items[..j + 1][0] == items[0];
      assert items[..j + 1][1..] == items[1..][..j];
      ReserveStep(store, items[..j + 1], next);
      j + 1
  }

  /** A step whose product exists with enough stock charges exactly that product. */
  lemma TakeFits(store: Store, item: ItemPayload)
    requires item.productId.Some? && item.productId.value in store
    requires item.qty <= store[item.productId.value].qty
    ensures Take(store, item) == Ok(store[item.productId.value := store[item.productId.value].(qty := store[item.productId.value].qty - item.qty)])
  {
  }

  /** A failing first step ends the loop with that step's error and the store untouched. */
  lemma ReserveAbortStep(store: Store, items: seq<ItemPayload>)
    requires |items| > 0 && Take(store, items[0]).Err?
    ensures Reserve(store, items) == Aborted(Take(store, items[0]).error, store)
  {
  }

  /** After a successful first step, the loop continues from the store that step left. */
  lemma ReserveStep(store: Store, items: seq<ItemPayload>, next: Store)
    requires |items| > 0 && Take(store, items[0]) == Ok(next)
    ensures Reserve(store, items) == Reserve(next, items[1..])
  {
  }

  /**
   * When all quantities are non-negative, the items fit exactly when every
   * named product exists and covers the sum of all quantities requested of
   * it: repeated ids are charged cumulatively.
   */
  lemma {:induction false} AdmissibleIffTotalsFit(store: Store, items: seq<ItemPayload>)
    requires forall k :: 0 <= k < |items| ==> items[k].qty >= 0
    ensures Admissible(store, items) <==>
      forall k :: 0 <= k < |items| ==>
        items[k].productId.Some? && items[k].productId.value in store
        && Demand(items, items[k].productId.value) <= store[items[k].productId.value].qty
    decreases |items|
  {
    if |items| > 0 {
      var n := |items| - 1;
      var init := items[..n];
      var last := items[n];
      assert items == init + [last];
      AdmissibleIffTotalsFit(store, init);
      forall id ensures Demand(items, id) == Demand(init, id) + (if last.productId == Some(id) then last.qty else 0) {
        DemandAppend(init, [last], id);
        assert [last][1..] == [];
      }
      forall k | 0 <= k < n ensures Fits(store, items, k) <==> Fits(store, init, k) {
        assert init[..k] == items[..k];
        assert init[k] == items[k];
      }
      assert Admissible(store, items) <==> Admissible(store, init) && Fits(store, items, n);
      assert Fits(store, items, n) <==>
        last.productId.Some? && last.productId.value in store
        && Demand(items, last.productId.value) <= store[last.productId.value].qty;
      forall k | 0 <= k < n && items[k].productId.Some?
        ensures Demand(init, items[k].productId.value) <= Demand(items, items[k].productId.value)
      {
        DemandPrefixBelow(items, n, items[k].productId.value);
      }
      assert forall k :: 0 <= k < n ==> init[k] == items[k];
    }
  }

  /** With non-negative quantities, a prefix never requests more than the whole list. */
  lemma {:induction false} DemandPrefixBelow(items: seq<ItemPayload>, j: int, id: ProductId)
    requires 0 <= j <= |items|
    requires forall k :: 0 <= k < |items| ==> items[k].qty >= 0
    ensures Demand(items[..j], id) <= Demand(items, id)
  {
    assert items == items[..j] + items[j..];
    DemandAppend(items[..j], items[j..], id);
    DemandNonNegative(items[j..], id);
  }

  lemma {:induction false} DemandNonNegative(items: seq<ItemPayload>, id: ProductId)
    requires forall k :: 0 <= k < |items| ==> items[k].qty >= 0
    ensures Demand(items, id) >= 0
    decreases |items|
  {
    if |items| > 0 {
      DemandNonNegative(items[1..], id);
    }
  }

  /**
   * Two items for the same product that each fit the original stock on
   * their own but not together: the first is charged, the second is checked
   * against the decremented stock and fails, and the first charge stays.
   */
  lemma DuplicateIdsChargedCumulatively(store: Store, id: ProductId, a: ItemPayload, b: ItemPayload)
    requires id in store && a.productId == Some(id) && b.productId == Some(id)
    requires a.qty <= store[id].qty && b.qty <= store[id].qty && a.qty + b.qty > store[id].qty
    ensures Reserve(store, [a, b]) ==
      Aborted(InsufficientQuantity(store[id].name), store[id := store[id].(qty := store[id].qty - a.qty)])
  {
    assert [a, b][1..] == [b];
  }
}

=== FILE: schema.dfy ===
/**
 * The constraints the order schema enforces when an order is persisted:
 * required fields, the item quantity range and the status enumeration with
 * its default.
 */
module Schema {
  import opened Wrappers
  import opened Model

  /** Bounds on a line item's quantity. */
  const MinItemQty := 1
  const MaxItemQty := 5

  /** An absent status is admitted (it takes the default); a present one must be an enum member. */
  predicate StatusAdmitted(s: Option<string>)
  {
    s.None? || s.value == "pending" || s.value == "completed" || s.value == "cancelled"
  }

  /** A required string must be present and, as the document mapper treats it, non-empty. */
  predicate RequiredText(s: Option<string>)
  {
    s.Some? && |s.value| > 0
  }

  /** A payload item passes the item sub-schema. */
  predicate ItemAdmitted(p: ItemPayload)
  {
    && RequiredText(p.name)
    && p.productId.Some?
    && p.price.Some?
    && MinItemQty <= p.qty <= MaxItemQty
  }

  /**
   * A payload passes the order schema. Nothing relates `grandTotal` to the
   * items and nothing asks for at least one item.
   */
  predicate Admitted(d: OrderPayload)
  {
    && d.grandTotal.Some?
    && d.createdBy.Some?
    && StatusAdmitted(d.status)
    && forall i :: 0 <= i < |d.orderItems| ==> ItemAdmitted(d.orderItems[i])
  }

  /** The invariant every stored order satisfies. */
  predicate WellFormed(o: Order)
  {
    forall i :: 0 <= i < |o.orderItems| ==>
      |o.orderItems[i].name| > 0 && MinItemQty <= o.orderItems[i].qty <= MaxItemQty
  }

  /** A stored item carries exactly what its payload item carried. */
  predicate Keeps(p: ItemPayload, it: Item)
  {
    p.name == Some(it.name) && p.productId == Some(it.productId) && p.price == Some(it.price) && p.qty == it.qty
  }

  /** The status a payload's status field is stored as, if the enum admits it. */
  function ParseStatus(s: Option<string>): (r: Option<Status>)
    ensures r.Some? <==> StatusAdmitted(s)
    ensures r.Some? && s.Some? ==> StatusName(r.value) == s.value
    ensures s.None? ==> r == Some(Pending)
  {
    match s
    case None => Some(Pending)
    case Some(t) =>
      if t == "pending" then Some(Pending)
      else if t == "completed" then Some(Completed)
      else if t == "cancelled" then Some(Cancelled)
      else None
  }

  function ConvertItem(p: ItemPayload): Option<Item>
  {
    if ItemAdmitted(p) then Some(Item(p.name.value, p.productId.value, p.price.value, p.qty)) else None
  }

  /** Casts the payload items to stored items, failing if any item is rejected. */
  function ConvertItems(ps: seq<ItemPayload>): (r: Option<seq<Item>>)
    ensures r.Some? <==> forall i :: 0 <= i < |ps| ==> ItemAdmitted(ps[i])
    ensures r.Some? ==> |r.value| == |ps| && forall i :: 0 <= i < |ps| ==> Keeps(ps[i], r.value[i])
  {
    if |ps| == 0 then Some([])
    else
      var head := ConvertItem(ps[0]);
      var tail := ConvertItems(ps[1..]);
      assert forall i :: 1 <= i < |ps| ==> ps[i] == ps[1..][i - 1];
      if head.Some? && tail.Some? then Some([head.value] + tail.value) else None
  }

  /**
   * Schema validation at the moment the order is created: the order is
   * stored exactly when the payload is admitted, the stored record passes
   * every field through unchanged, a missing status becomes pending and both
   * timestamps are the creation time.
   */
  function Validate(d: OrderPayload, now: int): (r: Result<Order, OrderError>)
    ensures r.Ok? <==> Admitted(d)
    ensures r.Err? ==> r.error == ValidationFailed
    ensures r.Ok? ==> WellFormed(r.value)
    ensures r.Ok? ==> d.grandTotal == Some(r.value.grandTotal) && d.createdBy == Some(r.value.createdBy)
    ensures r.Ok? ==> |r.value.orderItems| == |d.orderItems|
    ensures r.Ok? ==> forall i :: 0 <= i < |d.orderItems| ==> Keeps(d.orderItems[i], r.value.orderItems[i])
    ensures r.Ok? && d.status.None? ==> r.value.status == Pending
    ensures r.Ok? && d.status.Some? ==> StatusName(r.value.status) == d.status.value
    ensures r.Ok? ==> r.value.createdAt == now && r.value.updatedAt == now
  {
    match (d.grandTotal, d.createdBy, ParseStatus(d.status), ConvertItems(d.orderItems))
    case (Some(total), Some(user), Some(status), Some(items)) =>
      Ok(Order(total, items, user, status, now, now))
    case _ => Err(ValidationFailed)
  }

  /** An order with no line items passes the schema: no minimum length is declared. */
  lemma EmptyOrderAdmitted(total: int, user: UserId, now: int)
    ensures Validate(OrderPayload(Some(total), [], Some(user), None), now)
         == Ok(Order(total, [], user, Pending, now, now))
  {
  }

  /** Whether an order is stored never depends on the value of `grandTotal`, only on its presence. */
  lemma GrandTotalUnconstrained(d: OrderPayload, g: int, now: int)
    requires d.grandTotal.Some?
    ensures Validate(d.(grandTotal := Some(g)), now).Ok? <==> Validate(d, now).Ok?
  {
  }

  /** A single item outside 1..5 rejects the whole order. */
  lemma ItemQtyOutOfRangeRejected(d: OrderPayload, k: int, now: int)
    requires 0 <= k < |d.orderItems|
    requires d.orderItems[k].qty < MinItemQty || d.orderItems[k].qty > MaxItemQty
    ensures Validate(d, now) == Err(ValidationFailed)
  {
  }
}

=== FILE: search.dfy ===
/**
 * The search term match of the order list: a case-insensitive substring
 * test. Only ASCII letters are folded.
 */
module Search {

  /** ASCII lower-casing; every other character is its own lower case. */
  function Lower(c: char): char
  {
    if 'A' <= c <= 'Z' then (c as int - 'A' as int + 'a' as int) as char else c
  }

  /** Two strings of the same length that differ at most in letter case. */
  predicate SameIgnoringCase(a: string, b: string)
  {
    |a| == |b| && forall i :: 0 <= i < |a| ==> Lower(a[i]) == Lower(b[i])
  }

  /** `term` appears in `text` starting at position `i`, ignoring case. */
  predicate MatchesAt(text: string, term: string, i: int)
  {
    0 <= i && i + |term| <= |text| && SameIgnoringCase(text[i..i + |term|], term)
  }

  /** The reference meaning of a match: some window of `text` equals `term` up to case. */
  ghost predicate ContainsIgnoringCase(text: string, term: string)
  {
    exists i :: MatchesAt(text, term, i)
  }

  lemma MatchesAtShift(text: string, term: string, j: int)
    requires |text| > 0 && j >= 0
    ensures MatchesAt(text[1..], term, j) <==> MatchesAt(text, term, j + 1)
  {
    if j + |term| <= |text| - 1 {
      assert text[1..][j..j + |term|] == text[j + 1..j + 1 + |term|];
    }
  }

  /** Scans `text` left to right for a window matching `term`. */
  function Occurs(text: string, term: string): (r: bool)
    ensures r <==> ContainsIgnoringCase(text, term)
    decreases |text|
  {
    if |text| < |term| then
      assert forall i :: !MatchesAt(text, term, i);
      false
    else if MatchesAt(text, term, 0) then
      true
    else
      var r := Occurs(text[1..], term);
      assert ContainsIgnoringCase(text, term) ==> ContainsIgnoringCase(text[1..], term) by {
        if ContainsIgnoringCase(text, term) {
          var i :| MatchesAt(text, term, i);
          MatchesAtShift(text, term, i - 1);
        }
      }
      assert ContainsIgnoringCase(text[1..], term) ==> ContainsIgnoringCase(text, term) by {
        if ContainsIgnoringCase(text[1..], term) {
          var j :| MatchesAt(text[1..], term, j);
          MatchesAtShift(text, term, j);
        }
      }
      r
  }

  /** A match does not depend on the letter case of the term. */
  lemma {:induction false} OccursIgnoresCase(text: string, term: string, term': string)
    requires SameIgnoringCase(term, term')
    ensures Occurs(text, term) <==> Occurs(text, term')
  {
    if Occurs(text, term) {
      var i :| MatchesAt(text, term, i);
      assert MatchesAt(text, term', i);
    }
    if Occurs(text, term') {
      var i :| MatchesAt(text, term', i);
      assert MatchesAt(text, term, i);
    }
  }
}

=== FILE: service.dfy ===
/**
 * The order service's create operation: reserve stock item by item, then
 * attach the requesting user as creator and persist the order, validating
 * it against the order schema only at that last step.
 */
module OrdersService {
  import opened Wrappers
  import opened Model
  import opened Schema
  import opened Reservation

  /** The order created (or the error thrown) and the state of both collections afterwards. */
  datatype Created = Created(result: Result<Order, OrderError>, db: Db)

  /** The payload with `createdBy` set to the requesting user; every other field is kept as sent. */
  function WithCreator(payload: OrderPayload, user: UserId): (d: OrderPayload)
    ensures d.createdBy == Some(user)
    ensures d.grandTotal == payload.grandTotal && d.orderItems == payload.orderItems && d.status == payload.status
  {
    payload.(createdBy := Some(user))
  }

  /**
   * Creates an order for `user`. The order is stored exactly when every item
   * fits the stock its predecessors left and the payload passes the schema;
   * the stored order is the payload with `createdBy` set, its total, items
   * and status taken as sent (status `pending` when absent). A failure is
   * the error the reservation loop threw, or a validation failure when the
   * loop got through. Stock is charged as the reservation loop left it, also
   * when the order is then rejected, and no other order changes.
   */
  function Create(db: Db, payload: OrderPayload, user: UserId, now: int): (r: Created)
    ensures r.db.products == Reserve(db.products, payload.orderItems).store
    ensures r.db.products.Keys == db.products.Keys
    ensures NonNegative(db.products) ==> NonNegative(r.db.products)
    ensures r.result.Ok? <==> Admissible(db.products, payload.orderItems) && Admitted(WithCreator(payload, user))
    ensures Admissible(db.products, payload.orderItems) ==> r.db.products == Debit(db.products, payload.orderItems)
    ensures !Admissible(db.products, payload.orderItems) ==> r.result.Err? && !r.result.error.ValidationFailed?
    ensures r.result.Err? ==> r.db.orders == db.orders
    ensures r.result.Err? ==> r.result.error == match Reserve(db.products, payload.orderItems)
      case Aborted(e, _) => e
      case Reserved(_) => ValidationFailed
    ensures r.result.Ok? ==> r.db.orders == db.orders + [r.result.value]
    ensures r.result.Ok? ==>
      && r.result.value.createdBy == user
      && payload.grandTotal == Some(r.result.value.grandTotal)
      && |r.result.value.orderItems| == |payload.orderItems|
      && (forall i :: 0 <= i < |payload.orderItems| ==> Keeps(payload.orderItems[i], r.result.value.orderItems[i]))
      && WellFormed(r.result.value)
      && r.result.value.createdAt == now
    ensures r.result.Ok? && payload.status.None? ==> r.result.value.status == Pending
    ensures r.result.Ok? && payload.status.Some? ==> StatusName(r.result.value.status) == payload.status.value
    ensures r.result.Ok? ==> r.result.value.updatedAt == now
  {
    ReserveSucceedsIffAdmissible(db.products, payload.orderItems);
    match Reserve(db.products, payload.orderItems)
    case Aborted(e, store) =>
      Created(Err(e), Db(store, db.orders))
    case Reserved(store) =>
      ReservedChargesDemand(db.products, payload.orderItems);
      match Validate(WithCreator(payload, user), now)
      case Err(e) => Created(Err(e), Db(store, db.orders))
      case Ok(order) => Created(Ok(order), Db(store, db.orders + [order]))
  }

  /** The creator is always filled in, so it never causes a rejection. */
  lemma CreatorNeverMissing(db: Db, payload: OrderPayload, user: UserId, now: int)
    requires Admissible(db.products, payload.orderItems)
    requires payload.grandTotal.Some? && StatusAdmitted(payload.status)
    requires forall i :: 0 <= i < |payload.orderItems| ==> ItemAdmitted(payload.orderItems[i])
    ensures Create(db, payload, user, now).result.Ok?
  {
  }

  /**
   * An item over the schema's quantity limit whose product has the stock:
   * the reservation charges the stock, then persisting the order fails, and
   * the charge stays.
   */
  lemma OverLimitItemStillCharged(db: Db, payload: OrderPayload, user: UserId, now: int)
    requires |payload.orderItems| == 1
    requires payload.orderItems[0].productId.Some?
    requires payload.orderItems[0].productId.value in db.products
    requires MaxItemQty < payload.orderItems[0].qty <= db.products[payload.orderItems[0].productId.value].qty
    ensures Create(db, payload, user, now).result == Err(ValidationFailed)
    ensures Create(db, payload, user, now).db.orders == db.orders
    ensures Create(db, payload, user, now).db.products[payload.orderItems[0].productId.value].qty
         == db.products[payload.orderItems[0].productId.value].qty - payload.orderItems[0].qty
  {
    var item := payload.orderItems[0];
    assert payload.orderItems[1..] == [];
    assert Take(db.products, item).Ok?;
    assert Reserve(db.products, payload.orderItems).Reserved?;
    assert !ItemAdmitted(item);
  }

  /** Both collections are in the shape the workflow maintains: no negative stock, every order well formed. */
  predicate Consistent(db: Db)
  {
    NonNegative(db.products) && forall i :: 0 <= i < |db.orders| ==> WellFormed(db.orders[i])
  }

  /** One order-creation call. */
  datatype Request = Request(user: UserId, payload: OrderPayload, now: int)

  /** Serves the requests one after another, each seeing the collections the previous one left. */
  function Replay(db: Db, reqs: seq<Request>): Db
    decreases |reqs|
  {
    if |reqs| == 0 then db
    else Replay(Create(db, reqs[0].payload, reqs[0].user, reqs[0].now).db, reqs[1..])
  }

  /**
   * However the calls succeed or fail, sequential order creation keeps all
   * stock non-negative and stores only well-formed orders, and never removes
   * an order.
   */
  lemma {:induction false} ReplayStaysConsistent(db: Db, reqs: seq<Request>)
    requires Consistent(db)
    ensures Consistent(Replay(db, reqs))
    ensures db.orders <= Replay(db, reqs).orders
    ensures Replay(db, reqs).products.Keys == db.products.Keys
    decreases |reqs|
  {
    if |reqs| > 0 {
      var c := Create(db, reqs[0].payload, reqs[0].user, reqs[0].now);
      assert Consistent(c.db) by {
        if c.result.Ok? {
          assert c.db.orders == db.orders + [c.result.value];
          forall i | 0 <= i < |c.db.orders| ensures WellFormed(c.db.orders[i]) {
            if i < |db.orders| {
              assert c.db.orders[i] == db.orders[i];
            }
          }
        }
      }
      ReplayStaysConsistent(c.db, reqs[1..]);
    }
  }
}

=== FILE: wrappers.dfy ===
/** Failure-carrying datatypes used throughout the order model. */
module Wrappers {

  /** A value that may be absent: a JSON field that was not sent, a key with no document. */
  datatype Option<+T> = None | Some(value: T)

  /** The value if present, otherwise the default. */
  function GetOr<T>(o: Option<T>, default: T): T
  {
    match o
    case Some(v) => v
    case None => default
  }

  /** The outcome of an operation that may throw: a value, or the error it threw. */
  datatype Result<+T, +E> = Ok(value: T) | Err(error: E)
}
